=== FILE: README.md ===
# Warehouse and shop stock transfers

A Dafny model of the inventory logic in a small warehouse-and-shops web
application. One warehouse stocks named products. Shops request stock from
it, return stock to it, and are told which of their items are low or over
stock.

The model covers three layers, one module per source file:

- `Agents` (`agents.dfy`) holds the reconciliation rules over stock maps.
  - The low-stock filter uses threshold 5.
  - The restock planner ships `min(warehouse availability, 20 − quantity)`.
  - The overstock report gives the excess over the ceiling of 20.
- `Models` (`models.dfy`) holds the stock-file primitives with the file
  reads and writes removed. The two getters return a value read from the
  loaded contents. The four updates take the loaded contents and return
  what would be saved. The warehouse is an insertion-ordered dictionary:
  `Warehouse(order, stock)`, where `Valid()` says that `order` lists each
  key of `stock` exactly once.
- `App` (`app.dfy`) holds the bodies of the four handlers that change
  stock: add product, delete product, request stock and return stock. Each
  is a pure transition from `State(warehouse, shops)` to a
  `Response(state, outcome)`. The shop dashboard's low-stock map is a
  read-only query from the shop file's contents and a shop id to a stock
  map.

Two small helper modules support them. `Stock` (`stock.dfy`) defines the
stock map, `Get` with its default of 0, and `Total`, the number of units a
map holds. `Text` (`text.dfy`) defines the case folding used by
case-insensitive name matching.

Behaviours of the code that the model keeps:

- A name typed by the user is matched case-insensitively against stored
  keys. The handler takes the first match in insertion order, so the
  warehouse keeps its key order.
- `request_stock` debits the stored key it found but credits the shop under
  the name as typed.
- `return_stock` does no case-insensitive lookup. It debits the shop and
  credits the warehouse under the typed name.
- The handlers test the found key with `if found_product:`. A stored key
  `""` is false in Python, so it is reported as not found (see
  `App.EmptyNameNeverFound`).
- Quantities are never checked for sign. `q` is any integer.

Two behaviours of the code set the evidently intended meaning of a name:

- `add_product` refuses a name that matches a stored key in any casing
  (app.py:113-115), so stored keys are meant to be distinct up to case.
- `request_stock` resolves the typed name to the first stored key it
  matches and debits that key (app.py:159-166).

`return_stock` does neither. It credits the warehouse under the typed name
(app.py:183-186), so a return can add a second key that differs from a
stored key only in case. The model keeps this behaviour as written and
logs it under Findings. The thresholds are the constants 5 and 20
(agents.py:1-2, models.py:5).

## Model

| member | source | states |
|---|---|---|
| `Agents.CheckLowStock` | agents.py:4-5 | The result holds exactly the items whose quantity is below 5, each with its original quantity. |
| `Agents.CheckLowStockIdempotent` | agents.py:4-5 | Filtering an already filtered inventory returns it unchanged. |
| `Agents.LowStockExample` | agents.py:4-5 | Of 3 apples and 10 pears, only `apple ↦ 3` is low. |
| `Agents.GenerateRestockRequest` | agents.py:7-11 | The plan has the same items as the low-stock map. Each amount is at most the warehouse quantity (0 when absent). Each keeps the shop at or below 20. Each equals one of those two bounds. |
| `Agents.RestockIsLargestAllowed` | agents.py:9 | Any amount within both bounds is at most the planned amount, so the plan is the minimum of the two. |
| `Agents.RestockOfUnstockedItem` | agents.py:9 | An item the warehouse lacks gets a plan of at most 0. The plan is negative when the shop is above 20. |
| `Agents.RestockOfLowStockIsNonNegative` | agents.py:1-11 | Planned from `check_low_stock` against a warehouse with no negative quantity, every amount is at least 0. |
| `Agents.RestockExamples` | agents.py:7-11 | With 8 apples in the warehouse, 3 in the shop plans 8 and 18 in the shop plans 2. |
| `Agents.HandleOverstock` | agents.py:13-17 | The result holds exactly the items above 20. Each value is positive, and subtracting it leaves the shop at exactly 20. |
| `Agents.OverstockExample` | agents.py:13-17 | 25 apples and 5 pears report `apple ↦ 5` only. |
| `Agents.LowAndOverstockDisjoint` | agents.py:1-17 | No item is both low and overstocked. |
| `Models.GetShopStock` | models.py:23-25 | Returns the shop's map, or the empty map for an unknown shop. |
| `Models.UpdateShopStock` | models.py:27-32 | Sets `shop[product] = quantity` and creates the shop if it is missing. Every other product and every other shop is unchanged. |
| `Models.ShopReadAfterWrite` | models.py:23-32 | Reading back after an update gives the written quantity for that shop and product, and the old quantity everywhere else. |
| `Models.UpdateShopStockTotal` | models.py:27-32 | Setting a product changes the shop's total by the new quantity minus the old one. |
| `Models.GetWarehouseStock` | models.py:34-36 | Returns the stored quantity, or 0 when the product is absent. |
| `Models.UpdateWarehouseStock` | models.py:38-41 | The product becomes its old quantity (0 when absent) plus the change. Other keys are unchanged. The key set grows by at most that product. A stored key keeps the order unchanged, a new key is appended at the end, and the dictionary stays valid. |
| `Models.UpdateWarehouseStockUndo` | models.py:38-41 | Applying a change and then its opposite restores a stored product exactly. An absent product is left behind with quantity 0. |
| `Models.UpdateWarehouseStockTotal` | models.py:38-41 | An update changes the warehouse total by exactly the change. |
| `Models.AddWarehouseProduct` | models.py:43-49 | Returns true iff the exact name is absent. In that case it inserts `name ↦ initial` at the end of the order. Otherwise the warehouse is unchanged. |
| `Models.DeleteWarehouseProduct` | models.py:51-57 | Returns true iff the exact name is present. In that case it removes exactly that key, so one key fewer, and the other keys keep their order. Otherwise the warehouse is unchanged. |
| `Models.AddThenDeleteRestores` | models.py:43-57 | Deleting a product that was just added restores the warehouse, key order included. |
| `App.FirstMatch` | app.py:159-162 | The loop stops at the first stored key, in insertion order, that equals the name case-insensitively. No earlier key matches. |
| `App.FirstMatchMissing` | app.py:159-162 | The loop runs off the end iff no stored key matches. |
| `App.Resolve` | app.py:158-164 | A key that is found is stored, matches the name, is not `""`, and is the loop's first match. |
| `App.ResolveComplete` | app.py:158-164 | A key is found iff some stored key other than `""` matches the name. |
| `App.ResolveUnique` | app.py:159-162 | If no two stored keys differ only in case, the key found is the one stored key that matches. |
| `App.EmptyNameNeverFound` | app.py:158-173 | A request or delete for `""` answers not-found and changes nothing, even when `""` is stored. |
| `App.AddProduct` | app.py:112-118 | The add is rejected iff some stored key matches the name case-insensitively. A rejection names the first such key in insertion order and changes nothing. Otherwise the name was absent by exact match, is appended with its initial quantity, and the shops are unchanged. |
| `App.AddProductKeepsCaseUnique` | app.py:112-118 | Adding a product keeps the stored keys distinct up to case. |
| `App.DeleteProduct` | app.py:125-136 | Deletes exactly the resolved stored key iff some non-empty stored key matches. Otherwise it answers not-found and changes nothing. |
| `App.DeleteProductKeepsCaseUnique` | app.py:125-136 | Deleting keeps the stored keys distinct up to case. |
| `App.ShopDashboardLowStock` | app.py:143-146 | The dashboard's low-stock map equals `check_low_stock` on the same shop stock, because both thresholds are 5. |
| `App.RequestStock` | app.py:157-173 | Succeeds iff the name resolves and the stored quantity is at least `q`. On success, the found key drops by `q`, the key order is unchanged, and the shop's typed name rises by `q`. Nothing else changes. On failure it answers not-found when the name does not resolve and insufficient when it does, and leaves both files unchanged. |
| `App.RequestStockCasing` | app.py:157-168 | Requesting 5 of "Apple" when the warehouse stores "apple" 10 leaves `apple ↦ 5` in the warehouse and `Apple ↦ 5` in the shop. |
| `App.RequestStockWarehouseTotal` | app.py:164-166 | A successful request takes exactly `q` units out of the warehouse. |
| `App.RequestStockShopTotal` | app.py:167-168 | A successful request puts exactly `q` units into the shop. |
| `App.RequestStockConserves` | app.py:164-173 | The warehouse's units plus the shop's units are the same after a request, whatever its outcome. |
| `App.RequestStockKeepsCaseUnique` | app.py:157-173 | A request keeps the stored keys distinct up to case. |
| `App.ReturnStock` | app.py:183-189 | Succeeds iff the shop holds at least `q` under the exact name. On success, the shop entry drops by `q` and the warehouse entry under the same exact name becomes its old quantity (or 0) plus `q`. That name keeps its place in the order, or is appended when new. Otherwise it answers insufficient and changes nothing. |
| `App.ReturnStockWarehouseTotal` | app.py:184-186 | A successful return puts exactly `q` units into the warehouse. |
| `App.ReturnStockShopTotal` | app.py:183-185 | A successful return takes exactly `q` units out of the shop. |
| `App.ReturnStockConserves` | app.py:183-189 | The warehouse's units plus the shop's units are the same after a return, whatever its outcome. |
| `App.ReturnAfterRequestSplitsKey` | app.py:183-186 | Request 5 of "Apple" against `apple ↦ 10`, then return them. The warehouse ends as `apple ↦ 5, Apple ↦ 5`, not as before, and its keys are no longer distinct up to case. |
| `App.StoredKey` | app.py:159-162 | The corrected return credits a key that matches the name. When a stored key matches, it is the first such key in insertion order, the one the loop stops at. Only when none matches is it the typed name. |
| `App.ReturnStockToStoredKey` | app.py:183-189 | Corrected return: same guard and shop debit as the source, but the warehouse credit goes to the first stored key the name matches, whose place in the order is kept. |
| `App.ReturnStockToStoredKeyKeepsCaseUnique` | app.py:183-189 | The corrected return keeps the stored keys distinct up to case. |
| `App.ReturnToStoredKeyUndoesRequest` | app.py:164-189 | When the shop held at least 0 of the typed name before the request, returning with the corrected return what was just requested restores the warehouse exactly, key order included. |
| `App.ReturnToStoredKeyRestoresShops` | app.py:167-185 | When the shop held at least 0 of the typed name before the request, returning what was just requested with the corrected return also leaves every shop quantity as it was. |

## Findings

| source | as written | input that shows it | evidently intended | confidence | as-written member | corrected member |
|---|---|---|---|---|---|---|
| app.py:183-186 | `return_stock` credits the warehouse under the name as typed, with no case-insensitive lookup. `request_stock` debits the stored key. | Warehouse `{"apple": 10}` and an empty shop. Request "Apple" 5, then return "Apple" 5. The warehouse becomes `{"apple": 5, "Apple": 5}`. | The return credits the stored key the name matches, the same key the request debits. Request then return restores the warehouse, and no second key that differs only in case appears. | medium, not executed | `App.ReturnStock`, shown by `App.ReturnAfterRequestSplitsKey` | `App.ReturnStockToStoredKey`, proved by `App.ReturnToStoredKeyUndoesRequest` and `App.ReturnStockToStoredKeyKeepsCaseUnique` |

## Left out

- Loading and saving the two JSON files, their paths and formatting
  (models.py:3-21). The getters read from the loaded contents, and the
  updates take them and return what would be saved. The second load inside `update_*` sees the same
  contents in a sequential model.
- Flask routing, templates, redirects and the session (app.py throughout).
  The shop id is the logged-in user name, passed as a parameter. Outcomes
  stand in for the redirect and the plain-text messages.
- Form parsing with `int(...)`. A malformed number raises before any stock
  is touched, so the model takes `q` and the initial quantity as integers.
- The SQLAlchemy `User` model, password hashing, `register`, `login`,
  `logout`, `view_users`, `get_user_role`, `login_required` and the seeding
  of the warehouse user (app.py:12-98). These are authentication over a
  database library.
- `warehouse_dashboard` (app.py:100-104), which only loads and renders.
- The routes/auth.py blueprint, which only sets the session.
- Lost updates between concurrent requests that rewrite the same file. The
  model is sequential.
- `Text.Lower` folds only ASCII capitals. Python's `str.lower` also folds
  other Unicode letters. The model does not capture matches that depend on
  non-ASCII case.
- `App.RequestStockConserves`, `App.ReturnStockConserves`: they state
  conservation over the warehouse and the acting shop. That every other
  shop is unchanged is stated in the contracts of `App.RequestStock` and
  `App.ReturnStock`, not in these lemmas.
- The order of entries in the dictionaries the filters return, and the
  shop file's own key order: the order of shop ids and of each shop's
  products. The shop file is a map of maps. Nothing in the modelled code
  depends on these orders; the dashboard only renders the shop's stock
  (app.py:147).

=== FILE: agents.dfy ===
/** The reconciliation rules: which items of a shop are low, how much of
    each the warehouse should ship, and how far a shop is over its ceiling. */
module Agents {
  import opened Stock

  /** An item is low when its quantity is strictly below this. */
  const LowStockThreshold: int := 5
  /** No shop should hold more than this many units of one item. */
  const MaxStockLimit: int := 20

  function Min(a: int, b: int): (m: int)
    ensures m <= a && m <= b
    ensures m == a || m == b
  {
    if a <= b then a else b
  }

  /** `check_low_stock`: the entries of the shop's inventory whose quantity
      is below the threshold, with their quantities. */
  function CheckLowStock(inventory: StockMap): (low: StockMap)
    ensures forall p :: p in low <==> p in inventory && inventory[p] < LowStockThreshold
    ensures forall p :: p in low ==> low[p] == inventory[p]
  {
    map p | p in inventory && inventory[p] < LowStockThreshold :: inventory[p]
  }

  /** `generate_restock_request`: for every low item, ship as much as the
      warehouse has, but never so much that the shop would exceed the
      ceiling. */
  function GenerateRestockRequest(lowItems: StockMap, warehouse: StockMap): (plan: StockMap)
    ensures plan.Keys == lowItems.Keys
    ensures forall p :: p in plan ==>
      && plan[p] <= Get(warehouse, p)
      && lowItems[p] + plan[p] <= MaxStockLimit
      && (plan[p] == Get(warehouse, p) || lowItems[p] + plan[p] == MaxStockLimit)
  {
    map p | p in lowItems :: Min(Get(warehouse, p), MaxStockLimit - lowItems[p])
  }

  /** `handle_overstock`: every item above the ceiling, with the number of
      units by which it exceeds the ceiling. */
  function HandleOverstock(inventory: StockMap): (excess: StockMap)
    ensures forall p :: p in excess <==> p in inventory && inventory[p] > MaxStockLimit
    ensures forall p :: p in excess ==> excess[p] > 0 && inventory[p] - excess[p] == MaxStockLimit
  {
    map p | p in inventory && inventory[p] > MaxStockLimit :: inventory[p] - MaxStockLimit
  }

  /** The planned amount is the largest one that respects both bounds: any
      amount the warehouse can supply without pushing the shop past the
      ceiling is no more than the plan. */
  lemma RestockIsLargestAllowed(lowItems: StockMap, warehouse: StockMap, p: Product, x: int)
    requires p in lowItems
    requires x <= Get(warehouse, p) && lowItems[p] + x <= MaxStockLimit
    ensures p in GenerateRestockRequest(lowItems, warehouse)
    ensures x <= GenerateRestockRequest(lowItems, warehouse)[p]
  {
  }

  /** An item the warehouse does not stock gets a plan of at most zero,
      negative when the shop is already above the ceiling. */
  lemma RestockOfUnstockedItem(lowItems: StockMap, warehouse: StockMap, p: Product)
    requires p in lowItems && p !in warehouse
    ensures GenerateRestockRequest(lowItems, warehouse)[p] <= 0
    ensures lowItems[p] > MaxStockLimit ==> GenerateRestockRequest(lowItems, warehouse)[p] < 0
  {
  }

  /** Planned straight from the low-stock filter, against a warehouse with
      no negative quantities, no planned amount is negative: a low item has
      fewer than 5 units, so there is room for more than 15. */
  lemma RestockOfLowStockIsNonNegative(inventory: StockMap, warehouse: StockMap)
    requires forall p :: p in warehouse ==> warehouse[p] >= 0
    ensures var plan := GenerateRestockRequest(CheckLowStock(inventory), warehouse);
      forall p :: p in plan ==> plan[p] >= 0
  {
  }

  /** No item is both low and over the ceiling. */
  lemma LowAndOverstockDisjoint(inventory: StockMap)
    ensures CheckLowStock(inventory).Keys !! HandleOverstock(inventory).Keys
  {
  }

  /** Filtering an already filtered inventory changes nothing. */
  lemma CheckLowStockIdempotent(inventory: StockMap)
    ensures CheckLowStock(CheckLowStock(inventory)) == CheckLowStock(inventory)
  {
  }

  /** Worked example: of 3 apples and 10 pears, only the apples are low. */
  lemma LowStockExample()
    ensures CheckLowStock(map["apple" := 3, "pear" := 10]) == map["apple" := 3]
  {
  }

  /** Worked examples: a shop with 3 apples gets all 8 the warehouse has,
      one with 18 gets only the 2 that reach the ceiling. */
  lemma RestockExamples()
    ensures GenerateRestockRequest(map["apple" := 3], map["apple" := 8]) == map["apple" := 8]
    ensures GenerateRestockRequest(map["apple" := 18], map["apple" := 8]) == map["apple" := 2]
  {
  }

  /** Worked example: 25 apples are 5 over the ceiling; 5 pears are not. */
  lemma OverstockExample()
    ensures HandleOverstock(map["apple" := 25, "pear" := 5]) == map["apple" := 5]
  {
  }
}

=== FILE: app.dfy ===
/** The bodies of the four request handlers that change stock (add, delete,
    request, return), as transitions of the two stock files, and the shop
    dashboard's low-stock map, a read-only query of the shop file. Routing,
    sessions, templates and form parsing are not modelled: the shop id is the
    logged-in user's name and arrives as a parameter, and so do the product
    name and the quantity typed into the form. Quantities are not checked for sign, exactly as in the handlers. */
module App {
  import opened Stock
  import opened Text
  import opened Models
  import Agents

  datatype Option<T> = None | Some(value: T)

  /** Both stock files. */
  datatype State = State(warehouse: Warehouse, shops: ShopData)

  /** What a handler answers: a redirect back to the dashboard, or one of
      its plain-text error messages. */
  datatype Outcome =
    | Done
    | AlreadyExists(stored: Product)
    | NotFound(product: Product)
    | WarehouseInsufficient
    | ShopInsufficient

  datatype Response = Response(state: State, outcome: Outcome)

  /** Some stored key matches `p` case-insensitively. */
  ghost predicate HasMatch(w: Warehouse, p: Product) {
    exists k {:trigger Matches(k, p)} :: k in w.stock && Matches(k, p)
  }

  /** Some stored key other than the empty name matches `p`
      case-insensitively. */
  ghost predicate HasNonEmptyMatch(w: Warehouse, p: Product) {
    exists k {:trigger Matches(k, p)} :: k in w.stock && Matches(k, p) && k != ""
  }

  /** No two stored keys differ only in case: the property the add-product
      handler's duplicate check is there to keep. */
  ghost predicate CaseUnique(order: seq<Product>) {
    forall i, j :: 0 <= i < j < |order| ==> !Matches(order[i], order[j])
  }

  /** The loop over the warehouse keys that stops at the first key matching
      `p` case-insensitively: its position in insertion order, or the
      length of the order when no key matches. */
  function FirstMatch(order: seq<Product>, p: Product): (i: nat)
    ensures i <= |order|
    ensures i < |order| ==> Matches(order[i], p)
    ensures forall j :: 0 <= j < i ==> !Matches(order[j], p)
  {
    if order == [] then 0
    else if Matches(order[0], p) then 0
    else 1 + FirstMatch(order[1..], p)
  }

  /** No match at all exactly when the loop runs off the end. */
  lemma FirstMatchMissing(w: Warehouse, p: Product)
    requires w.Valid()
    ensures FirstMatch(w.order, p) == |w.order| <==> !HasMatch(w, p)
  {
    KeysListed(w);
    var i := FirstMatch(w.order, p);
    if i < |w.order| {
      assert w.order[i] in w.stock;
    } else {
      forall k | k in w.stock
        ensures !Matches(k, p)
      {
        var j :| 0 <= j < |w.order| && w.order[j] == k;
      }
    }
  }

  /** `found_product` after the loop, read as the handlers' `if found_product:`
      reads it: the first matching stored key, except that the empty name is
      false in Python and so counts as not found. */
  function Resolve(w: Warehouse, p: Product): (found: Option<Product>)
    requires w.Valid()
    ensures found.Some? ==> found.value in w.stock && Matches(found.value, p) && found.value != ""
    ensures found.Some? ==> FirstMatch(w.order, p) < |w.order| && found.value == w.order[FirstMatch(w.order, p)]
  {
    var i := FirstMatch(w.order, p);
    if i < |w.order| && w.order[i] != "" then
      KeysListed(w);
      Some(w.order[i])
    else
      None
  }

  /** The handlers find a product exactly when some stored key other than
      the empty name matches it: a first match that is the empty name can
      only happen when nothing else matches. */
  lemma ResolveComplete(w: Warehouse, p: Product)
    requires w.Valid()
    ensures Resolve(w, p).Some? <==> HasNonEmptyMatch(w, p)
  {
    var i := FirstMatch(w.order, p);
    FirstMatchMissing(w, p);
    KeysListed(w);
    if i < |w.order| && w.order[i] != "" {
      assert w.order[i] in w.stock && Matches(w.order[i], p);
    } else if i < |w.order| {
      MatchesEmpty(p);
      forall k | k in w.stock && Matches(k, p)
        ensures k == ""
      {
        MatchesEmpty(k);
      }
    }
  }

  /** When no two stored keys differ only in case, the key a handler acts on
      is the one stored key that matches, whatever the insertion order. */
  lemma ResolveUnique(w: Warehouse, p: Product, k: Product)
    requires w.Valid() && CaseUnique(w.order)
    requires k in w.stock && Matches(k, p) && k != ""
    ensures Resolve(w, p) == Some(k)
  {
    KeysListed(w);
    var i := FirstMatch(w.order, p);
    var j :| 0 <= j < |w.order| && w.order[j] == k;
    assert i <= j;
    assert i < j ==> Matches(w.order[i], w.order[j]);
  }

  /** `add_product`: refuse a name that matches a stored key in any casing,
      naming the stored key; otherwise insert it with its initial quantity. */
  function AddProduct(s: State, name: Product, initial: int): (r: Response)
    requires s.warehouse.Valid()
    ensures r.state.warehouse.Valid()
    ensures r.outcome.AlreadyExists? <==> HasMatch(s.warehouse, name)
    ensures r.outcome.AlreadyExists? ==>
      && r.state == s
      && r.outcome.stored in s.warehouse.stock
      && Matches(r.outcome.stored, name)
      && FirstMatch(s.warehouse.order, name) < |s.warehouse.order|
      && r.outcome.stored == s.warehouse.order[FirstMatch(s.warehouse.order, name)]
    ensures !r.outcome.AlreadyExists? ==>
      && r.outcome == Done
      && name !in s.warehouse.stock
      && r.state.warehouse.stock == s.warehouse.stock[name := initial]
      && r.state.warehouse.order == s.warehouse.order + [name]
      && r.state.shops == s.shops
  {
    var w := s.warehouse;
    var i := FirstMatch(w.order, name);
    FirstMatchMissing(w, name);
    KeysListed(w);
    if i < |w.order| then
      assert w.order[i] in w.stock;
      Response(s, AlreadyExists(w.order[i]))
    else
      assert name !in w.stock by {
        if name in w.stock {
          assert Matches(name, name);
        }
      }
      Response(State(AddWarehouseProduct(w, name, initial).warehouse, s.shops), Done)
  }

  /** `delete_product`: remove the stored key the name resolves to, or
      answer that the product is not found and change nothing. */
  function DeleteProduct(s: State, name: Product): (r: Response)
    requires s.warehouse.Valid()
    ensures r.state.warehouse.Valid()
    ensures r.outcome == Done <==> HasNonEmptyMatch(s.warehouse, name)
    ensures r.outcome != Done ==> r.outcome == NotFound(name) && r.state == s
    ensures r.outcome == Done ==>
      && Resolve(s.warehouse, name).Some?
      && var k := Resolve(s.warehouse, name).value;
      && k in s.warehouse.stock
      && Matches(k, name)
      && r.state.warehouse.stock == s.warehouse.stock - {k}
      && r.state.warehouse.order == RemoveKey(s.warehouse.order, k)
      && r.state.shops == s.shops
  {
    ResolveComplete(s.warehouse, name);
    match Resolve(s.warehouse, name)
    case Some(found) =>
      Response(State(DeleteWarehouseProduct(s.warehouse, found).warehouse, s.shops), Done)
    case None =>
      Response(s, NotFound(name))
  }

  /** The low-stock map the shop dashboard shows: the shop's items below the
      dashboard's own threshold. */
  function ShopDashboardLowStock(shops: ShopData, shopId: string): (low: StockMap)
    ensures low == Agents.CheckLowStock(GetShopStock(shops, shopId))
  {
    var stock := GetShopStock(shops, shopId);
    map p | p in stock && stock[p] < Models.LowStockThreshold :: stock[p]
  }

  /** `request_stock`: when the name resolves to a stored key holding at
      least `q`, debit that stored key and credit the shop under the name
      as the user typed it. */
  function RequestStock(s: State, shopId: string, product: Product, q: int): (r: Response)
    requires s.warehouse.Valid()
    ensures r.state.warehouse.Valid()
    ensures r.outcome == NotFound(product) <==> Resolve(s.warehouse, product).None?
    ensures r.outcome == Done <==>
      && Resolve(s.warehouse, product).Some?
      && s.warehouse.stock[Resolve(s.warehouse, product).value] >= q
    ensures r.outcome != Done ==> r.state == s
    ensures Resolve(s.warehouse, product).Some? && r.outcome != Done ==>
      r.outcome == WarehouseInsufficient
    ensures r.outcome == Done ==>
      && var found := Resolve(s.warehouse, product).value;
      && r.state.warehouse.order == s.warehouse.order
      && r.state.warehouse.stock == s.warehouse.stock[found := s.warehouse.stock[found] - q]
      && ShopUpdated(s.shops, r.state.shops, shopId, product,
                     Get(GetShopStock(s.shops, shopId), product) + q)
  {
    var w := s.warehouse;
    match Resolve(w, product)
    case None =>
      Response(s, NotFound(product))
    case Some(found) =>
      if w.stock[found] >= q then
        var current := Get(GetShopStock(s.shops, shopId), product);
        var w' := UpdateWarehouseStock(w, found, -q);
        assert w'.stock == w.stock[found := w.stock[found] - q];
        Response(State(w', UpdateShopStock(s.shops, shopId, product, current + q)), Done)
      else
        Response(s, WarehouseInsufficient)
  }

  /** `return_stock`: when the shop holds at least `q` of the product under
      exactly this name, debit the shop and credit the warehouse under the
      same name, with no case-insensitive lookup. */
  function ReturnStock(s: State, shopId: string, product: Product, q: int): (r: Response)
    requires s.warehouse.Valid()
    ensures r.state.warehouse.Valid()
    ensures r.outcome == Done <==> Get(GetShopStock(s.shops, shopId), product) >= q
    ensures r.outcome != Done ==> r.outcome == ShopInsufficient && r.state == s
    ensures r.outcome == Done ==>
      && r.state.warehouse.stock == s.warehouse.stock[product := Get(s.warehouse.stock, product) + q]
      && r.state.warehouse.order ==
           (if product in s.warehouse.stock then s.warehouse.order else s.warehouse.order + [product])
      && ShopUpdated(s.shops, r.state.shops, shopId, product,
                     Get(GetShopStock(s.shops, shopId), product) - q)
  {
    var current := Get(GetShopStock(s.shops, shopId), product);
    if current >= q then
      Response(State(UpdateWarehouseStock(s.warehouse, product, q),
                     UpdateShopStock(s.shops, shopId, product, current - q)), Done)
    else
      Response(s, ShopInsufficient)
  }

  /** Units held by the warehouse and one shop together. */
  ghost function Units(s: State, shopId: string): int {
    Total(s.warehouse.stock) + Total(GetShopStock(s.shops, shopId))
  }

  /** A successful stock request takes exactly `q` units out of the
      warehouse. */
  lemma RequestStockWarehouseTotal(s: State, shopId: string, product: Product, q: int)
    requires s.warehouse.Valid()
    requires RequestStock(s, shopId, product, q).outcome == Done
    ensures Total(RequestStock(s, shopId, product, q).state.warehouse.stock) == Total(s.warehouse.stock) - q
  {
    var found := Resolve(s.warehouse, product).value;
    TotalSet(s.warehouse.stock, found, s.warehouse.stock[found] - q);
  }

  /** A successful stock request puts exactly `q` units into the shop. */
  lemma RequestStockShopTotal(s: State, shopId: string, product: Product, q: int)
    requires s.warehouse.Valid()
    requires RequestStock(s, shopId, product, q).outcome == Done
    ensures Total(GetShopStock(RequestStock(s, shopId, product, q).state.shops, shopId))
      == Total(GetShopStock(s.shops, shopId)) + q
  {
    var shop := GetShopStock(s.shops, shopId);
    var current := Get(shop, product);
    TotalSet(shop, product, current + q);
    assert GetShopStock(RequestStock(s, shopId, product, q).state.shops, shopId) == shop[product := current + q];
  }

  /** A stock request moves units between the warehouse and the shop and
      never creates or destroys them. */
  lemma RequestStockConserves(s: State, shopId: string, product: Product, q: int)
    requires s.warehouse.Valid()
    ensures Units(RequestStock(s, shopId, product, q).state, shopId) == Units(s, shopId)
  {
    if RequestStock(s, shopId, product, q).outcome == Done {
      RequestStockWarehouseTotal(s, shopId, product, q);
      RequestStockShopTotal(s, shopId, product, q);
    }
  }

  /** A successful stock return puts exactly `q` units back into the
      warehouse. */
  lemma ReturnStockWarehouseTotal(s: State, shopId: string, product: Product, q: int)
    requires s.warehouse.Valid()
    requires ReturnStock(s, shopId, product, q).outcome == Done
    ensures Total(ReturnStock(s, shopId, product, q).state.warehouse.stock) == Total(s.warehouse.stock) + q
  {
    TotalSet(s.warehouse.stock, product, Get(s.warehouse.stock, product) + q);
  }

  /** A successful stock return takes exactly `q` units out of the shop. */
  lemma ReturnStockShopTotal(s: State, shopId: string, product: Product, q: int)
    requires s.warehouse.Valid()
    requires ReturnStock(s, shopId, product, q).outcome == Done
    ensures Total(GetShopStock(ReturnStock(s, shopId, product, q).state.shops, shopId))
      == Total(GetShopStock(s.shops, shopId)) - q
  {
    var shop := GetShopStock(s.shops, shopId);
    var current := Get(shop, product);
    TotalSet(shop, product, current - q);
    assert GetShopStock(ReturnStock(s, shopId, product, q).state.shops, shopId) == shop[product := current - q];
  }

  /** A stock return moves units between the shop and the warehouse and
      never creates or destroys them. */
  lemma ReturnStockConserves(s: State, shopId: string, product: Product, q: int)
    requires s.warehouse.Valid()
    ensures Units(ReturnStock(s, shopId, product, q).state, shopId) == Units(s, shopId)
  {
    if ReturnStock(s, shopId, product, q).outcome == Done {
      ReturnStockWarehouseTotal(s, shopId, product, q);
      ReturnStockShopTotal(s, shopId, product, q);
    }
  }

  /** Appending a name that matches no stored key keeps the stored keys
      distinct up to case. */
  lemma AddProductKeepsCaseUnique(s: State, name: Product, initial: int)
    requires s.warehouse.Valid() && CaseUnique(s.warehouse.order)
    ensures CaseUnique(AddProduct(s, name, initial).state.warehouse.order)
  {
  }

  /** Removing a key keeps the remaining keys distinct up to case. */
  lemma {:induction false} RemoveKeyCaseUnique(order: seq<Product>, p: Product)
    requires CaseUnique(order)
    ensures CaseUnique(RemoveKey(order, p))
  {
    if order != [] {
      var tail := order[1..];
      assert CaseUnique(tail) by {
        forall i, j | 0 <= i < j < |tail|
          ensures !Matches(tail[i], tail[j])
        {
          assert tail[i] == order[i + 1] && tail[j] == order[j + 1];
        }
      }
      RemoveKeyCaseUnique(tail, p);
      var rest := RemoveKey(tail, p);
      if order[0] != p {
        var r := [order[0]] + rest;
        assert RemoveKey(order, p) == r;
        forall i, j | 0 <= i < j < |r|
          ensures !Matches(r[i], r[j])
        {
          assert r[j] == rest[j - 1];
          assert rest[j - 1] in tail;
          if i == 0 {
            var m :| 0 <= m < |tail| && tail[m] == rest[j - 1];
            assert tail[m] == order[m + 1];
          } else {
            assert r[i] == rest[i - 1];
          }
        }
      } else {
        assert RemoveKey(order, p) == rest;
      }
    }
  }

  /** Deleting a product keeps the stored keys distinct up to case. */
  lemma DeleteProductKeepsCaseUnique(s: State, name: Product)
    requires s.warehouse.Valid() && CaseUnique(s.warehouse.order)
    ensures CaseUnique(DeleteProduct(s, name).state.warehouse.order)
  {
    if DeleteProduct(s, name).outcome == Done {
      RemoveKeyCaseUnique(s.warehouse.order, Resolve(s.warehouse, name).value);
    }
  }

  /** A stock request only changes quantities of stored keys, so it keeps
      the stored keys distinct up to case. */
  lemma RequestStockKeepsCaseUnique(s: State, shopId: string, product: Product, q: int)
    requires s.warehouse.Valid() && CaseUnique(s.warehouse.order)
    ensures CaseUnique(RequestStock(s, shopId, product, q).state.warehouse.order)
  {
  }

  /** The empty name is false in Python, so a stored key "" is never found
      by the request and delete handlers, even though the loop matches it. */
  lemma EmptyNameNeverFound(s: State, shopId: string, q: int)
    requires s.warehouse.Valid()
    ensures RequestStock(s, shopId, "", q) == Response(s, NotFound(""))
    ensures DeleteProduct(s, "") == Response(s, NotFound(""))
  {
  }

  /** The warehouse holding 10 units of "apple" and a shop holding nothing. */
  function AppleState(): (s: State)
    ensures s.warehouse.Valid() && CaseUnique(s.warehouse.order)
  {
    State(Warehouse(["apple"], map["apple" := 10]), map[])
  }

  /** Requesting 5 of "Apple" against a warehouse that stores "apple" debits
      the stored "apple" but credits the shop under "Apple". */
  lemma RequestStockCasing()
    ensures var r := RequestStock(AppleState(), "shop", "Apple", 5);
      && r.outcome == Done
      && r.state.warehouse.stock == map["apple" := 5]
      && GetShopStock(r.state.shops, "shop") == map["Apple" := 5]
  {
  }

  /** A return credits the warehouse under the name the shop typed, with no
      case-insensitive lookup: returning the 5 units of "Apple" just
      requested leaves the warehouse with a second key "Apple" instead of
      giving "apple" its 10 units back, and the stored keys are no longer
      distinct up to case. */
  lemma ReturnAfterRequestSplitsKey()
    ensures var r1 := RequestStock(AppleState(), "shop", "Apple", 5);
      var r2 := ReturnStock(r1.state, "shop", "Apple", 5);
      && r1.outcome == Done && r2.outcome == Done
      && r2.state.warehouse.stock == map["apple" := 5, "Apple" := 5]
      && r2.state.warehouse != AppleState().warehouse
      && !CaseUnique(r2.state.warehouse.order)
  {
  }

  /** The key the corrected return credits: the first stored key matching
      the name case-insensitively, or the name itself when none does. */
  function StoredKey(w: Warehouse, product: Product): (key: Product)
    requires w.Valid()
    ensures Matches(key, product)
    ensures HasMatch(w, product) ==> key in w.stock
    ensures !HasMatch(w, product) ==> key == product
    ensures HasMatch(w, product) ==>
      FirstMatch(w.order, product) < |w.order| && key == w.order[FirstMatch(w.order, product)]
  {
    var i := FirstMatch(w.order, product);
    FirstMatchMissing(w, product);
    KeysListed(w);
    if i < |w.order| then
      w.order[i]
    else
      product
  }

  /** `return_stock` crediting the stored key the request debits: the
      warehouse is credited under the first stored key the name matches
      case-insensitively, as `request_stock` resolves it, and under the
      typed name only when no stored key matches. Stored keys then stay
      distinct up to case, as `add_product` intends. */
  function ReturnStockToStoredKey(s: State, shopId: string, product: Product, q: int): (r: Response)
    requires s.warehouse.Valid()
    ensures r.state.warehouse.Valid()
    ensures r.outcome == Done <==> Get(GetShopStock(s.shops, shopId), product) >= q
    ensures r.outcome != Done ==> r.outcome == ShopInsufficient && r.state == s
    ensures r.outcome == Done ==>
      && var key := StoredKey(s.warehouse, product);
      && r.state.warehouse.stock == s.warehouse.stock[key := Get(s.warehouse.stock, key) + q]
      && r.state.warehouse.order ==
           (if key in s.warehouse.stock then s.warehouse.order else s.warehouse.order + [key])
      && ShopUpdated(s.shops, r.state.shops, shopId, product,
                     Get(GetShopStock(s.shops, shopId), product) - q)
  {
    var current := Get(GetShopStock(s.shops, shopId), product);
    if current >= q then
      Response(State(UpdateWarehouseStock(s.warehouse, StoredKey(s.warehouse, product), q),
                     UpdateShopStock(s.shops, shopId, product, current - q)), Done)
    else
      Response(s, ShopInsufficient)
  }

  /** The corrected return keeps the stored keys distinct up to case. */
  lemma ReturnStockToStoredKeyKeepsCaseUnique(s: State, shopId: string, product: Product, q: int)
    requires s.warehouse.Valid() && CaseUnique(s.warehouse.order)
    ensures CaseUnique(ReturnStockToStoredKey(s, shopId, product, q).state.warehouse.order)
  {
    var r := ReturnStockToStoredKey(s, shopId, product, q);
    if r.outcome == Done {
      var w := s.warehouse;
      var i := FirstMatch(w.order, product);
      FirstMatchMissing(w, product);
      KeysListed(w);
      if i == |w.order| {
        var order' := w.order + [product];
        assert r.state.warehouse.order == order';
        forall a, b | 0 <= a < b < |order'|
          ensures !Matches(order'[a], order'[b])
        {
          assert order'[a] == w.order[a] && w.order[a] in w.stock;
          if b < |w.order| {
            assert order'[b] == w.order[b];
          }
        }
      } else {
        assert w.order[i] in w.stock;
        assert r.state.warehouse.order == w.order;
      }
    }
  }

  /** When the shop held at least 0 of the typed name before the request,
      returning with the corrected return what was just requested puts the
      warehouse back exactly as it was, key order included. (A shop holding
      a negative amount may be refused the return.) */
  lemma ReturnToStoredKeyUndoesRequest(s: State, shopId: string, product: Product, q: int)
    requires s.warehouse.Valid()
    requires RequestStock(s, shopId, product, q).outcome == Done
    requires Get(GetShopStock(s.shops, shopId), product) >= 0
    ensures var r1 := RequestStock(s, shopId, product, q);
      var r2 := ReturnStockToStoredKey(r1.state, shopId, product, q);
      r2.outcome == Done && r2.state.warehouse == s.warehouse
  {
  }

  /** Under the same hypothesis, it also leaves every shop quantity as it
      was, though the shop may keep an entry of 0 for the name it typed. */
  lemma ReturnToStoredKeyRestoresShops(s: State, shopId: string, product: Product, q: int)
    requires s.warehouse.Valid()
    requires RequestStock(s, shopId, product, q).outcome == Done
    requires Get(GetShopStock(s.shops, shopId), product) >= 0
    ensures var r1 := RequestStock(s, shopId, product, q);
      var r2 := ReturnStockToStoredKey(r1.state, shopId, product, q);
      forall id, p :: Get(GetShopStock(r2.state.shops, id), p) == Get(GetShopStock(s.shops, id), p)
  {
  }
}

=== FILE: models.dfy ===
/** The stock-file primitives with the file reads and writes taken out: the
    two getters return a value read from the loaded contents, and the four
    updates take the loaded contents and return what would be saved.

    The warehouse file is loaded into an insertion-ordered dictionary, and the
    handlers that resolve a name case-insensitively take the first match in
    that order, so the warehouse keeps its key order next to its quantities. */
module Models {
  import opened Stock

  /** The low-stock threshold the shop dashboard uses. */
  const LowStockThreshold: int := 5

  /** The contents of the shop file: shop id to that shop's stock. */
  type ShopData = map<string, StockMap>

  /** The contents of the warehouse file: its keys in insertion order, and
      the quantity of each. */
  datatype Warehouse = Warehouse(order: seq<Product>, stock: StockMap) {
    /** What every Python dictionary satisfies: the order lists each key
        exactly once. */
    ghost predicate Valid() {
      Lists(order, stock)
    }
  }

  /** A warehouse primitive's new contents and the flag it returns. */
  datatype Change = Change(warehouse: Warehouse, changed: bool)

  /** `order` lists every key of `stock` exactly once and nothing else. */
  ghost predicate Lists(order: seq<Product>, stock: StockMap)
    decreases |order|
  {
    if order == [] then stock == map[]
    else order[0] in stock && Lists(order[1..], stock - {order[0]})
  }

  /** A listing holds exactly the keys, and as many entries as keys. */
  lemma {:induction false} ListsKeys(order: seq<Product>, stock: StockMap)
    requires Lists(order, stock)
    ensures forall k :: k in order <==> k in stock
    ensures |order| == |stock|
    decreases |order|
  {
    if order != [] {
      var rest := stock - {order[0]};
      ListsKeys(order[1..], rest);
      assert rest.Keys == stock.Keys - {order[0]};
      assert order == [order[0]] + order[1..];
    }
  }

  /** The keys of a valid warehouse are those its order lists. */
  lemma KeysListed(w: Warehouse)
    requires w.Valid()
    ensures forall k :: k in w.order <==> k in w.stock
  {
    ListsKeys(w.order, w.stock);
  }

  /** Changing the quantity of a listed key keeps the listing. */
  lemma {:induction false} ListsSet(order: seq<Product>, stock: StockMap, p: Product, v: int)
    requires Lists(order, stock) && p in stock
    ensures Lists(order, stock[p := v])
    decreases |order|
  {
    if order[0] == p {
      assert stock[p := v] - {p} == stock - {p};
    } else {
      assert stock[p := v] - {order[0]} == (stock - {order[0]})[p := v];
      ListsSet(order[1..], stock - {order[0]}, p, v);
    }
  }

  /** Appending a new key lists it along with the old ones. */
  lemma {:induction false} ListsAppend(order: seq<Product>, stock: StockMap, p: Product, v: int)
    requires Lists(order, stock) && p !in stock
    ensures Lists(order + [p], stock[p := v])
    decreases |order|
  {
    if order == [] {
      assert [] + [p] == [p];
      assert stock[p := v] - {p} == map[];
    } else {
      assert (order + [p])[1..] == order[1..] + [p];
      assert stock[p := v] - {order[0]} == (stock - {order[0]})[p := v];
      ListsAppend(order[1..], stock - {order[0]}, p, v);
    }
  }

  /** The key order with `p` taken out, the rest in the same order. */
  function RemoveKey(order: seq<Product>, p: Product): (r: seq<Product>)
    ensures forall k :: k in r <==> k in order && k != p
    ensures |r| <= |order|
  {
    if order == [] then []
    else if order[0] == p then RemoveKey(order[1..], p)
    else [order[0]] + RemoveKey(order[1..], p)
  }

  /** Taking a key out of the order lists the keys without it. */
  lemma {:induction false} ListsRemove(order: seq<Product>, stock: StockMap, p: Product)
    requires Lists(order, stock)
    ensures Lists(RemoveKey(order, p), stock - {p})
    decreases |order|
  {
    if order == [] {
      assert stock - {p} == map[];
    } else if order[0] == p {
      ListsKeys(order[1..], stock - {p});
      RemoveAbsentKey(order[1..], p);
    } else {
      var r := RemoveKey(order, p);
      assert r == [order[0]] + RemoveKey(order[1..], p);
      assert r[1..] == RemoveKey(order[1..], p);
      assert (stock - {p}) - {order[0]} == (stock - {order[0]}) - {p};
      ListsRemove(order[1..], stock - {order[0]}, p);
    }
  }

  /** Removing a key that was never there leaves the order as it was. */
  lemma {:induction false} RemoveAbsentKey(order: seq<Product>, p: Product)
    requires p !in order
    ensures RemoveKey(order, p) == order
  {
    if order != [] {
      assert order[1..] + [] == order[1..];
      assert p !in order[1..];
      RemoveAbsentKey(order[1..], p);
      assert [order[0]] + order[1..] == order;
    }
  }

  /** Removing the key just appended undoes the append. */
  lemma {:induction false} RemoveAppendedKey(order: seq<Product>, p: Product)
    requires p !in order
    ensures RemoveKey(order + [p], p) == order
  {
    if order == [] {
      assert [] + [p] == [p];
      assert [p][1..] == [];
    } else {
      assert (order + [p])[0] == order[0];
      assert (order + [p])[1..] == order[1..] + [p];
      assert p !in order[1..];
      RemoveAppendedKey(order[1..], p);
      assert [order[0]] + order[1..] == order;
    }
  }

  /** `get_shop_stock`: the shop's stock, or an empty one for an unknown shop. */
  function GetShopStock(shops: ShopData, shopId: string): (s: StockMap)
    ensures shopId in shops ==> s == shops[shopId]
    ensures shopId !in shops ==> s == map[]
  {
    if shopId in shops then shops[shopId] else map[]
  }

  /** `after` is `before` with the shop's `product` set to `quantity`, the
      shop created if it was missing, and nothing else different. */
  ghost predicate ShopUpdated(before: ShopData, after: ShopData, shopId: string, product: Product, quantity: int) {
    && after.Keys == before.Keys + {shopId}
    && product in after[shopId] && after[shopId][product] == quantity
    && after[shopId].Keys == GetShopStock(before, shopId).Keys + {product}
    && (forall p :: p in after[shopId] && p != product ==> after[shopId][p] == GetShopStock(before, shopId)[p])
    && (forall id :: id in before && id != shopId ==> after[id] == before[id])
  }

  /** `update_shop_stock`: set one product of one shop, creating the shop's
      entry first if it has none. */
  function UpdateShopStock(shops: ShopData, shopId: string, product: Product, quantity: int): (r: ShopData)
    ensures ShopUpdated(shops, r, shopId, product, quantity)
  {
    var current := if shopId in shops then shops[shopId] else map[];
    shops[shopId := current[product := quantity]]
  }

  /** `get_warehouse_stock`: the stored quantity, or 0 for an unknown product. */
  function GetWarehouseStock(w: Warehouse, product: Product): (q: int)
    ensures product in w.stock ==> q == w.stock[product]
    ensures product !in w.stock ==> q == 0
  {
    Get(w.stock, product)
  }

  /** `update_warehouse_stock`: add a (possibly negative) change to one
      product, counting from 0 for a product not yet stored. A new product
      goes to the end of the order; a stored one keeps its place. */
  function UpdateWarehouseStock(w: Warehouse, product: Product, delta: int): (r: Warehouse)
    requires w.Valid()
    ensures r.Valid()
    ensures r.stock.Keys == w.stock.Keys + {product}
    ensures r.stock[product] == GetWarehouseStock(w, product) + delta
    ensures forall p :: p in w.stock && p != product ==> r.stock[p] == w.stock[p]
    ensures r.order == if product in w.stock then w.order else w.order + [product]
  {
    if product in w.stock then
      ListsSet(w.order, w.stock, product, w.stock[product] + delta);
      Warehouse(w.order, w.stock[product := w.stock[product] + delta])
    else
      ListsAppend(w.order, w.stock, product, delta);
      Warehouse(w.order + [product], w.stock[product := delta])
  }

  /** `add_warehouse_product`: insert a product that is not stored under
      exactly this name, and report whether it did. */
  function AddWarehouseProduct(w: Warehouse, product: Product, initial: int): (r: Change)
    requires w.Valid()
    ensures r.warehouse.Valid()
    ensures r.changed <==> product !in w.stock
    ensures r.changed ==> r.warehouse.stock == w.stock[product := initial]
    ensures r.changed ==> r.warehouse.order == w.order + [product]
    ensures !r.changed ==> r.warehouse == w
  {
    if product !in w.stock then
      ListsAppend(w.order, w.stock, product, initial);
      Change(Warehouse(w.order + [product], w.stock[product := initial]), true)
    else
      Change(w, false)
  }

  /** `delete_warehouse_product`: remove a product stored under exactly this
      name, and report whether it did. */
  function DeleteWarehouseProduct(w: Warehouse, product: Product): (r: Change)
    requires w.Valid()
    ensures r.warehouse.Valid()
    ensures r.changed <==> product in w.stock
    ensures r.changed ==> r.warehouse.stock == w.stock - {product}
    ensures r.changed ==> |r.warehouse.stock| == |w.stock| - 1
    ensures r.changed ==> r.warehouse.order == RemoveKey(w.order, product)
    ensures !r.changed ==> r.warehouse == w
  {
    if product in w.stock then
      ListsRemove(w.order, w.stock, product);
      assert (w.stock - {product}).Keys == w.stock.Keys - {product};
      Change(Warehouse(RemoveKey(w.order, product), w.stock - {product}), true)
    else
      Change(w, false)
  }

  /** Reading a shop back after writing it returns what was written, and
      every other product of every shop reads as before. */
  lemma ShopReadAfterWrite(shops: ShopData, shopId: string, product: Product, quantity: int, id: string, p: Product)
    ensures var after := UpdateShopStock(shops, shopId, product, quantity);
      Get(GetShopStock(after, id), p) ==
        if id == shopId && p == product then quantity else Get(GetShopStock(shops, id), p)
  {
  }

  /** Adding a change and then its opposite restores a stored product; an
      unknown product is left behind with quantity 0. */
  lemma UpdateWarehouseStockUndo(w: Warehouse, product: Product, delta: int)
    requires w.Valid()
    ensures var back := UpdateWarehouseStock(UpdateWarehouseStock(w, product, delta), product, -delta);
      && (product in w.stock ==> back == w)
      && (product !in w.stock ==> back.stock == w.stock[product := 0] && back.order == w.order + [product])
  {
  }

  /** Deleting a product just added restores the warehouse exactly, order
      included. */
  lemma AddThenDeleteRestores(w: Warehouse, product: Product, initial: int)
    requires w.Valid()
    requires product !in w.stock
    ensures var added := AddWarehouseProduct(w, product, initial).warehouse;
      DeleteWarehouseProduct(added, product) == Change(w, true)
  {
    KeysListed(w);
    RemoveAppendedKey(w.order, product);
    var added := AddWarehouseProduct(w, product, initial).warehouse;
    assert added.stock - {product} == w.stock;
  }

  /** Updating a product changes the warehouse total by exactly the change. */
  lemma UpdateWarehouseStockTotal(w: Warehouse, product: Product, delta: int)
    requires w.Valid()
    ensures Total(UpdateWarehouseStock(w, product, delta).stock) == Total(w.stock) + delta
  {
    TotalSet(w.stock, product, GetWarehouseStock(w, product) + delta);
  }

  /** Setting a product of a shop changes that shop's total by the change
      in that product's quantity. */
  lemma UpdateShopStockTotal(shops: ShopData, shopId: string, product: Product, quantity: int)
    ensures Total(GetShopStock(UpdateShopStock(shops, shopId, product, quantity), shopId))
      == Total(GetShopStock(shops, shopId)) - Get(GetShopStock(shops, shopId), product) + quantity
  {
    var current := GetShopStock(shops, shopId);
    TotalSet(current, product, quantity);
    assert GetShopStock(UpdateShopStock(shops, shopId, product, quantity), shopId) == current[product := quantity];
  }
}

=== FILE: stock.dfy ===
/** Stock mappings: product name to quantity, the shape of both the
    warehouse file and each shop's entry in the shop file. */
module Stock {

  type Product = string
  type StockMap = map<Product, int>

  /** `m.get(p, 0)`: the stored quantity, or 0 for an unknown product. */
  function Get(m: StockMap, p: Product): (q: int)
    ensures p in m ==> q == m[p]
    ensures p !in m ==> q == 0
  {
    if p in m then m[p] else 0
  }

  /** The total number of units a stock mapping holds. */
  ghost function Total(m: StockMap): int
    decreases |m|
  {
    if m == map[] then 0
    else
      var k :| k in m;
      assert |(m - {k}).Keys| < |m.Keys| by {
        assert (m - {k}).Keys == m.Keys - {k};
      }
      m[k] + Total(m - {k})
  }

  /** The total may be computed by taking out any one product first, not
      only the one `Total` happens to pick. */
  lemma {:induction false} TotalRemove(m: StockMap, p: Product)
    requires p in m
    ensures Total(m) == m[p] + Total(m - {p})
    decreases |m|
  {
    var k :| k in m && Total(m) == m[k] + Total(m - {k});
    if k != p {
      var mk := m - {k};
      var mp := m - {p};
      assert mk.Keys == m.Keys - {k};
      assert mp.Keys == m.Keys - {p};
      assert p in mk && k in mp;
      TotalRemove(mk, p);
      TotalRemove(mp, k);
      assert mk - {p} == mp - {k};
    }
  }

  /** Setting one product to `v` changes the total by exactly the change in
      that product's quantity. */
  lemma TotalSet(m: StockMap, p: Product, v: int)
    ensures Total(m[p := v]) == Total(m) - Get(m, p) + v
  {
    var m' := m[p := v];
    TotalRemove(m', p);
    if p in m {
      TotalRemove(m, p);
      assert m' - {p} == m - {p};
    } else {
      assert m' - {p} == m;
    }
  }
}

=== FILE: text.dfy ===
/** Case folding of product names, as the request handlers use it when they
    resolve a name typed by a user against the names stored in the warehouse.
    Only ASCII letters are folded; see README for what this leaves out. */
module Text {

  /** Lower-cases one ASCII letter and leaves every other character alone. */
  function LowerChar(c: char): (d: char)
    ensures 'A' <= c <= 'Z' ==> 'a' <= d <= 'z' && d as int - c as int == 32
    ensures !('A' <= c <= 'Z') ==> d == c
  {
    if 'A' <= c <= 'Z' then (c as int + 32) as char else c
  }

  /** `s.lower()`: the same string with every ASCII capital replaced by its
      small letter. */
  function Lower(s: string): (r: string)
    ensures |r| == |s|
    ensures forall i :: 0 <= i < |s| ==> r[i] == LowerChar(s[i])
  {
    seq(|s|, i requires 0 <= i < |s| => LowerChar(s[i]))
  }

  /** A stored name `k` matches a user-supplied name `p` when both fold to
      the same string. */
  predicate Matches(k: string, p: string) {
    Lower(k) == Lower(p)
  }

  /** Only the empty name folds to the empty string, so the empty name
      matches nothing but itself. */
  lemma MatchesEmpty(k: string)
    ensures Matches(k, "") <==> k == ""
  {
  }
}
